=== FILE: README.md ===
# sails-fdbsql adapter core, modelled in Dafny

This project models the adapter of sails-fdbsql, the Sails/Waterline adapter for the
FoundationDB SQL Layer (`lib/adapter.js`). It covers five pieces of that file:

- **The connection registry.** This is the module-level `connections` object. The model is a
  class `FdbSqlAdapter.Adapter` with a field `connections: map<string, Connection>`.
  - `registerConnection` adds an entry and then describes every collection.
  - `teardown` removes an entry.
  - The guard of `spawnConnection` refuses a name that is not registered. Every modelled
    operation other than `registerConnection` and `teardown` passes through that guard first,
    and so does every other data operation except `stream`, which reads the registry directly.
- **The boolean wire-token parser.** This is the parser the adapter registers with the
  driver for type OID 16 (`BoolParser`).
- **The aggregate check at the top of `find`** (`FindGuard`).
- **`describe`** (`DescribeRows`, `Adapter.Describe`). It sets the `autoincrement` and
  `indexed` flags on the rows of the introspection query and stores the normalised schema on
  the collection. A query error or an empty result gives "no schema" and no error.
- **Sequence reconciliation** (`Sequences`, `Adapter.Create`, `Adapter.CreateEach`).
  - `create` restarts the sequence of each auto-increment column that the record supplied.
    The restart value is the returned value + 1.
  - `createEach` keeps one tracker per auto-increment column, starting at 0. Each returned
    row raises the tracker to the running maximum of value + 1. When every insert succeeded,
    the adapter restarts each sequence once, at its tracker.

The database is an oracle:
- the introspection response, the insert results, the outcome of each restart statement and
  the rows of a `find` are parameters;
- within a batch, the answer to a statement depends on its position as well as its content
  (`insert: (nat, Record) -> Result<Row, DriverError>`, `execute: (nat, Statement) ->
  Outcome<DriverError>`). So two equal records may get two different serial ids, or the
  second may break a unique constraint that the first did not
  (`Sequences.DuplicateRecordsGetDistinctRows`, `Sequences.DuplicateRecordLaterRefused`);
- `create` and `createEach` also return `issued`, the statements they send, so that "no
  restart after a failed insert" and "one restart per column" can be stated.

All statements of one `create` or `createEach` go through one driver client. That client
runs its queue in the order the statements were issued. So the sequential loops of the model
match the order of the source's `async.each` there:
- every statement is issued;
- the error reported is the first one in issue order;
- `createEach` returns its rows in record order.

`registerConnection`'s describes each take their own client, through their own
`spawnConnection`, and finish in any order. The model picks the collections in an arbitrary
order, and the result does not depend on it, because each describe writes a different
collection and the results are keyed by collection name.

JavaScript semantics the decisions depend on are written out in `Js`:
- truthiness, for `if (!connection.identity)`, `options.groupBy`, `column.sequence_name` and
  the other flags;
- `v + 1`, which is NaN for a missing value;
- `<`, which is false whenever NaN is involved.

Behaviour kept as the code has it, where a reader might expect otherwise:
- **Booleans.** The parser is case-sensitive. Only `t`, `true`, `y` and `yes` decode to
  true; `T` and `YES` decode to false (`BoolParser.ParseBoolStricterThanIgnoringCase`).
- **Aggregates.** The check accepts any number of aggregate functions at once. Its error is
  `InvalidGroupBy`.
- **Which columns `createEach` reseeds.** It tracks every column that declares
  `autoIncrement`, whether or not a record supplied it. An empty batch restarts each such
  sequence at 0 (`Sequences.EmptyBatchRestartsAtZero`). That behaviour is kept as written.
- **Restart value.** Both insert paths restart at value + 1. A one-row batch agrees with a
  single insert whenever that value is positive (`Sequences.SingleInsertMatchesBatch`).
- **"Declares `autoIncrement`".** This means the attribute has an own `autoIncrement`
  property, whatever its value. `autoIncrement: false` counts too.

## Model

| member | source | states |
|---|---|---|
| `BoolParser.ParseBool` | lib/adapter.js:39-41 | a token decodes to true exactly when it is one of "t", "true", "y", "yes" |
| `BoolParser.AcceptedTokensAreLowercase` | lib/adapter.js:40 | no accepted token contains an ASCII capital |
| `BoolParser.UpperCaseRejected` | lib/adapter.js:40 | a token with a capital letter anywhere decodes to false (the comparison is exact and case-sensitive) |
| `BoolParser.ParseBoolStricterThanIgnoringCase` | lib/adapter.js:39-41 | every accepted token is also accepted after lower-casing, while "T" and "YES" are accepted only by the case-insensitive reading |
| `FindGuard.CheckAggregates` | lib/adapter.js:433-437 | fails, with InvalidGroupBy, exactly when groupBy is truthy and none of sum/average/min/max is |
| `FindGuard.AggregatePasses` | lib/adapter.js:433-437 | any truthy aggregate key lets the query through, with or without groupBy |
| `FindGuard.PlainQueryPasses` | lib/adapter.js:433 | a query that sets none of the five keys passes |
| `DescribeRows.Annotate` | lib/adapter.js:134-137 | on a row fresh from the query, autoincrement is set exactly when sequence_name is truthy and indexed exactly when index_name is truthy; no other field changes; a flag already set stays set |
| `DescribeRows.AnnotateIdempotent` | lib/adapter.js:134-137 | setting the flags a second time changes nothing |
| `DescribeRows.AnnotateColumns` | lib/adapter.js:134-137 | the in-place loop leaves every row of the result array annotated |
| `DescribeRows.DescribeSchema` | lib/adapter.js:130-145 | a query error or zero rows gives no schema; otherwise the schema is the normalisation of the annotated rows |
| `DescribeRows.IndexedAndSerialColumnsReported` | lib/adapter.js:134-137 | in the described rows, a column is indexed exactly when it has an index_name, and autoincrement exactly when it has a sequence_name |
| `Client.FirstFailure` | lib/adapter.js:419-422 | no error exactly when every statement succeeds; otherwise the error of the first statement that fails, all earlier ones having succeeded |
| `Client.FirstInsertErrorIsFirst` | lib/adapter.js:405-406 | no error exactly when every insert succeeds; otherwise the error of the first failing insert |
| `Client.InsertedRowsInOrder` | lib/adapter.js:380-386 | when every insert succeeds, one returned row per record, in record order |
| `Client.RunEach` | lib/adapter.js:330-333 | running the statements reports exactly the first failure |
| `Sequences.AutoIncrementColumnsMembers` | lib/adapter.js:353-359 | a name is tracked exactly when some schema key of that name declares autoIncrement |
| `Sequences.SuppliedColumnsMembers` | lib/adapter.js:304 | keeps exactly the columns that the inserted data has as keys |
| `Sequences.CollectReseedColumns` | lib/adapter.js:299-306 | create reseeds the schema keys that declare autoIncrement and appear in the data, in schema key order, and no others |
| `Sequences.TrackAutoIncrementColumns` | lib/adapter.js:350-359 | one tracker per auto-increment column, in schema order, each starting at 0 whether or not the batch supplies it |
| `Sequences.Raise` | lib/adapter.js:389-397 | checkSequence returns either the tracker or the row's value + 1, and never less than either; so it is their maximum, and a NaN value leaves the tracker unchanged |
| `Sequences.BatchTrackerIsMaximum` | lib/adapter.js:389-397 | after a batch the tracker equals max(0, max over the rows of value + 1) |
| `Sequences.BatchMaximumUnique` | lib/adapter.js:389-397 | that maximum depends only on which rows came back |
| `Sequences.BatchTrackerOrderIndependent` | lib/adapter.js:368-397 | the final tracker does not depend on the order in which the inserts complete |
| `Sequences.BatchTrackerMonotone` | lib/adapter.js:393-395 | the tracker never decreases as rows complete |
| `Sequences.BatchRestartExceedsSupplied` | lib/adapter.js:405-412 | the batch restart value is non-negative and strictly greater than every numeric value the batch returned for that column |
| `Sequences.SingleInsertMatchesBatch` | lib/adapter.js:322 | a one-row batch restarts at the same value + 1 as a single insert when that value is positive |
| `Sequences.CreateRestarts` | lib/adapter.js:320-323 | create issues one restart per chosen column, naming that column, at the returned value + 1 |
| `Sequences.CreateRestartsAsWritten` | lib/adapter.js:323 | as written, every restart statement of create names the column "undefined" |
| `Sequences.CreateRestartsAsWrittenMissColumn` | lib/adapter.js:323 | as written, a restart never names the column whose value was supplied, so it differs from the intended statements |
| `Sequences.BatchRestarts` | lib/adapter.js:409-412 | createEach issues one restart per tracked column, naming it, at that column's batch maximum |
| `Sequences.EmptyBatchRestartsAtZero` | lib/adapter.js:405-412 | an empty batch restarts every tracked sequence at 0 |
| `Sequences.RaiseTrackers` | lib/adapter.js:389-402 | every tracker's value is raised in place for the completed row; keys do not change |
| `Sequences.InsertBatch` | lib/adapter.js:368-403 | every record is inserted; the first error is kept; the trackers end at the batch maximum of the rows that came back |
| `Sequences.DuplicateRecordsGetDistinctRows` | lib/adapter.js:368-397 | two equal records whose inserts return serial ids 1 and 2 both succeed, give two rows, and leave the tracker at 3 |
| `Sequences.DuplicateRecordLaterRefused` | lib/adapter.js:368-381 | two equal records where only the second insert breaks a unique constraint give that error, after one row came back |
| `Sequences.TrackerRestarts` | lib/adapter.js:409-419 | one restart statement per tracker, at its value |
| `FdbSqlAdapter.RegistrationCheckAsWritten` | lib/adapter.js:72-73 | as written, a name inherited from Object.prototype counts as already registered |
| `FdbSqlAdapter.RegistrationCheck` | lib/adapter.js:72-73 | a missing identity gives IdentityMissing, a registered one IdentityDuplicate, and otherwise registration proceeds; this agrees with the code for every name not inherited from Object.prototype |
| `FdbSqlAdapter.PrototypeNameRejectedAsWritten` | lib/adapter.js:46 | as written, an empty registry refuses the identity "toString" as a duplicate |
| `FdbSqlAdapter.SpawnCheckAsWritten` | lib/adapter.js:598-599 | as written, the guard passes every registered name and every name inherited from Object.prototype, and refuses the rest with InvalidConnection |
| `FdbSqlAdapter.SpawnCheckAsWrittenAgrees` | lib/adapter.js:598-599 | as written, the guard lets through exactly the registered names, and refuses others with InvalidConnection, for every name not inherited from Object.prototype |
| `FdbSqlAdapter.PrototypeNamePassesGuardAsWritten` | lib/adapter.js:598-599 | as written, "toString" passes the guard though it is not registered, even right after its teardown |
| `FdbSqlAdapter.DescribeOneMore` | lib/adapter.js:82-84 | describing one more collection changes exactly that collection's entry and result |
| `FdbSqlAdapter.Adapter.constructor` | lib/adapter.js:46 | the registry starts empty |
| `FdbSqlAdapter.Adapter.SpawnConnection` | lib/adapter.js:598-599 | an operation proceeds exactly when the name is registered, with that entry, whose configuration carries that identity; otherwise it fails with InvalidConnection |
| `FdbSqlAdapter.Adapter.RegisterConnection` | lib/adapter.js:68-85 | on a failed check, returns the check's error and leaves the registry unchanged; otherwise adds exactly one entry, `{config, collections}` keyed by the identity, with every collection described, and returns each collection's schema |
| `FdbSqlAdapter.Adapter.Teardown` | lib/adapter.js:88-92 | removes only the named entry; an unknown name changes nothing |
| `FdbSqlAdapter.Adapter.Describe` | lib/adapter.js:112-148 | an unregistered name gives InvalidConnection; no schema gives success without a schema; an unknown collection with a schema gives UnknownCollection; otherwise stores the schema on that collection only |
| `FdbSqlAdapter.Adapter.Find` | lib/adapter.js:429-483 | checks, in order: the connection guard, then the aggregate check, then the collection lookup; then returns the driver's rows or error |
| `FdbSqlAdapter.Adapter.Create` | lib/adapter.js:280-338 | after the lookups, inserts the record; on an insert error returns it and issues no restart; otherwise issues one restart per supplied auto-increment column and returns the row unless a restart fails |
| `FdbSqlAdapter.Adapter.CreateEach` | lib/adapter.js:341-426 | after the lookups, inserts every record; if any insert fails, returns the first error and issues no restart; otherwise issues exactly one restart per tracked column at its batch maximum and returns the rows unless a restart fails |
| `FdbSqlAdapter.TeardownClosesConnection` | lib/adapter.js:598-599 | after teardown of a name, the connection guard refuses that name with InvalidConnection |
| `FdbSqlAdapter.TeardownIdempotent` | lib/adapter.js:88-92 | a second teardown of the same name changes nothing |

## Findings

| source | as written | input that shows it | evidently intended | confidence | as-written member | corrected member |
|---|---|---|---|---|---|---|
| lib/adapter.js:46 | `connections` is a plain object, so `connections[name]` is truthy for names inherited from Object.prototype. | `registerConnection` with identity "toString" on an empty registry fails with IdentityDuplicate. The same name also passes the guard at line 598. | Only registered names count as taken or usable. | high, not executed | `FdbSqlAdapter.RegistrationCheckAsWritten` (`FdbSqlAdapter.PrototypeNameRejectedAsWritten`), `FdbSqlAdapter.SpawnCheckAsWritten` (`FdbSqlAdapter.PrototypeNamePassesGuardAsWritten`) | `FdbSqlAdapter.RegistrationCheck`, `FdbSqlAdapter.Adapter.SpawnConnection` (`FdbSqlAdapter.TeardownClosesConnection`) |
| lib/adapter.js:323 | The restart statement of `create` takes its column from `item.key`, but `item` is a plain column name. | `create` with `{id: 10}`, where `id` declares autoIncrement, sends `ALTER COLUMN "undefined" RESTART WITH 11`. | `ALTER COLUMN "id" RESTART WITH 11` | high, not executed | `Sequences.CreateRestartsAsWritten` (`Sequences.CreateRestartsAsWrittenMissColumn`) | `Sequences.CreateRestarts` |

The registry class and `Adapter.Create` use the corrected definitions.

## Left out

- **Driver and connection plumbing.** Not modelled:
  - `pg.connect`, releasing the client, and connection errors (lib/adapter.js:611-633);
  - rewriting a `url` configuration (lib/adapter.js:603-608);
  - the raw `query` passthrough (lib/adapter.js:95-109);
  - `stream` and its event handlers (lib/adapter.js:486-523).

  Statement execution is an oracle.
- **DDL and the other data operations.** `define`, `drop`, `addAttribute`,
  `removeAttribute`, `update` and `destroy` (lib/adapter.js:151-276, 526-586) are not
  modelled. They assemble SQL around helpers that are not part of this model, and they share
  only the connection guard, which is modelled as `Adapter.SpawnConnection`.
- **Helpers from lib/query.js and lib/utils.js.** Neither file is part of this model. Their
  roles are covered as follows:
  - `find` receives its rows already cast and grouped;
  - `describe` takes the schema normaliser as a parameter;
  - `create` and `createEach` take the cast rows from the insert oracle.
- **SQL text.** Statements are modelled by their target column and restart value only, not
  by their text.
- **Concurrency.** `async.each` in `create` and `createEach` runs as a sequential loop. This
  matches the one-client FIFO order, but it does not model a client that serves queries
  concurrently. The concurrent describes of `registerConnection` run one at a time, in an
  arbitrary order.
- `FdbSqlAdapter.Adapter.RegisterConnection` returns the describe results as a map from
  collection name, not as an array in key order.
- **Aliasing.** `describe` updates the caller's own collection objects. The model updates
  only the registry's copy.
- `FdbSqlAdapter.Adapter.Find` leaves out setting `options._schemaName` (lib/adapter.js:442-447).
  It does not change the outcome of the guard.
- **Identities.** An identity is a string. "" stands for every falsy identity. Non-string
  identities, whose property key would be their string form, are not modelled.
- **Collection names.** The source looks up `collections[table]` on a plain object
  (lib/adapter.js:116, 283, 345, 440), so a table name inherited from Object.prototype, such
  as "constructor", is found there: `describe` then stores the schema on the inherited
  function and succeeds, and `find` goes on to run its query. The model treats such a name
  as an unknown collection and returns UnknownCollection.
- **TypeErrors.** The source throws a TypeError when a collection or its schema is
  undefined. The model reports these as the errors UnknownCollection and SchemaUndescribed.
- **Numbers.** They are integers; floating point is not modelled. `Js.PlusOne` treats a
  string or object value as NaN, whereas JavaScript concatenates a string. This only matters
  if an auto-increment column comes back as a string.
- **Null tokens.** The boolean parser is only given non-null tokens. The driver passes SQL
  NULL through without calling the parser, which is not part of this model.

=== FILE: adapter.dfy ===
/**
 * The sails-fdbsql adapter: its registry of named connections and the operations that run
 * on a connection taken from it. The database is an oracle: each operation receives the
 * driver's answers (or a function giving them) as parameters.
 */
module FdbSqlAdapter {
  import opened Js
  import opened Wrappers
  import opened AdapterTypes
  import opened FindGuard
  import opened DescribeRows
  import opened Client
  import opened Sequences

  /** Property names every plain JavaScript object inherits from Object.prototype. */
  const ObjectPrototypeNames: set<string> := {
    "constructor", "hasOwnProperty", "isPrototypeOf", "propertyIsEnumerable",
    "toLocaleString", "toString", "valueOf", "__proto__",
    "__defineGetter__", "__defineSetter__", "__lookupGetter__", "__lookupSetter__"
  }

  /** `connections[name]` is truthy, as written: an own entry, or a member inherited from Object.prototype. */
  predicate LooksRegisteredAsWritten(connections: map<string, Connection>, name: string) {
    name in connections || name in ObjectPrototypeNames
  }

  /** The two checks of `registerConnection` as written, over the plain-object registry. */
  function RegistrationCheckAsWritten(connections: map<string, Connection>, identity: string): (o: Outcome<AdapterError>)
    ensures o == Fail(IdentityMissing) <==> identity == ""
    ensures o == Fail(IdentityDuplicate) <==> identity != "" && LooksRegisteredAsWritten(connections, identity)
    ensures o.Pass? || o == Fail(IdentityMissing) || o == Fail(IdentityDuplicate)
  {
    if identity == "" then Fail(IdentityMissing)
    else if LooksRegisteredAsWritten(connections, identity) then Fail(IdentityDuplicate)
    else Pass
  }

  /** The two checks of `registerConnection`, against the registered names only. */
  function RegistrationCheck(connections: map<string, Connection>, identity: string): (o: Outcome<AdapterError>)
    ensures o.Pass? <==> identity != "" && identity !in connections
    ensures o == Fail(IdentityMissing) <==> identity == ""
    ensures o == Fail(IdentityDuplicate) <==> identity != "" && identity in connections
    ensures identity !in ObjectPrototypeNames ==> o == RegistrationCheckAsWritten(connections, identity)
  {
    if identity == "" then Fail(IdentityMissing)
    else if identity in connections then Fail(IdentityDuplicate)
    else Pass
  }

  /** As written, an empty registry refuses the identity "toString" as a duplicate. */
  lemma PrototypeNameRejectedAsWritten()
    ensures RegistrationCheckAsWritten(map[], "toString") == Fail(IdentityDuplicate)
    ensures RegistrationCheck(map[], "toString") == Pass
  {
  }

  /** The guard of `spawnConnection` as written: the name is looked up on the plain-object registry. */
  function SpawnCheckAsWritten(connections: map<string, Connection>, name: string): (o: Outcome<AdapterError>)
    ensures o.Pass? <==> name in connections || name in ObjectPrototypeNames
    ensures o.Fail? ==> o.error == InvalidConnection
  {
    if LooksRegisteredAsWritten(connections, name) then Pass else Fail(InvalidConnection)
  }

  /** Off the inherited names, the guard as written lets through exactly the registered names. */
  lemma SpawnCheckAsWrittenAgrees(connections: map<string, Connection>, name: string)
    requires name !in ObjectPrototypeNames
    ensures SpawnCheckAsWritten(connections, name).Pass? <==> name in connections
    ensures SpawnCheckAsWritten(connections, name).Fail? ==> SpawnCheckAsWritten(connections, name).error == InvalidConnection
  {
  }

  /** As written, "toString" passes the guard although it is not registered, even right after its teardown. */
  lemma PrototypeNamePassesGuardAsWritten(connections: map<string, Connection>)
    ensures "toString" !in connections - {"toString"}
    ensures SpawnCheckAsWritten(connections - {"toString"}, "toString") == Pass
  {
  }

  /** A collection after `describe`: the schema is replaced only when one was found. */
  function Redescribed(c: Collection, s: Option<Schema>): Collection {
    if s.Some? then c.(schema := s) else c
  }

  /** Every collection after the `describe` that `registerConnection` runs for it. */
  function DescribeCollections(
    collections: map<string, Collection>,
    introspect: string -> Result<seq<ColumnRow>, DriverError>,
    normalize: seq<ColumnRow> -> Schema): map<string, Collection>
  {
    map t | t in collections :: Redescribed(collections[t], DescribeSchema(introspect(t), normalize))
  }

  /** The collections with those not in `pending` described. */
  function PartlyDescribed(
    collections: map<string, Collection>,
    pending: set<string>,
    introspect: string -> Result<seq<ColumnRow>, DriverError>,
    normalize: seq<ColumnRow> -> Schema): map<string, Collection>
  {
    map t | t in collections ::
      if t in pending then collections[t] else Redescribed(collections[t], DescribeSchema(introspect(t), normalize))
  }

  /** The schemas found for the collections not in `pending`. */
  function DescribedSchemas(
    collections: map<string, Collection>,
    pending: set<string>,
    introspect: string -> Result<seq<ColumnRow>, DriverError>,
    normalize: seq<ColumnRow> -> Schema): map<string, Option<Schema>>
  {
    map t | t in collections && t !in pending :: DescribeSchema(introspect(t), normalize)
  }

  /** Describing one more pending collection updates exactly its entry. */
  lemma DescribeOneMore(
    collections: map<string, Collection>,
    pending: set<string>,
    t: string,
    introspect: string -> Result<seq<ColumnRow>, DriverError>,
    normalize: seq<ColumnRow> -> Schema)
    requires t in pending && t in collections
    ensures PartlyDescribed(collections, pending - {t}, introspect, normalize) ==
            PartlyDescribed(collections, pending, introspect, normalize)[t :=
              Redescribed(collections[t], DescribeSchema(introspect(t), normalize))]
    ensures DescribedSchemas(collections, pending - {t}, introspect, normalize) ==
            DescribedSchemas(collections, pending, introspect, normalize)[t := DescribeSchema(introspect(t), normalize)]
  {
  }

  /** Before the first `describe`, every collection is still pending. */
  lemma NoneDescribed(
    collections: map<string, Collection>,
    introspect: string -> Result<seq<ColumnRow>, DriverError>,
    normalize: seq<ColumnRow> -> Schema)
    ensures PartlyDescribed(collections, collections.Keys, introspect, normalize) == collections
    ensures DescribedSchemas(collections, collections.Keys, introspect, normalize) == map[]
  {
  }

  /** Once nothing is pending, every collection is described. */
  lemma AllDescribed(
    collections: map<string, Collection>,
    introspect: string -> Result<seq<ColumnRow>, DriverError>,
    normalize: seq<ColumnRow> -> Schema)
    ensures PartlyDescribed(collections, {}, introspect, normalize) == DescribeCollections(collections, introspect, normalize)
    ensures DescribedSchemas(collections, {}, introspect, normalize) ==
            map t | t in collections :: DescribeSchema(introspect(t), normalize)
  {
  }

  /** `describe` of one more pending collection, on the registry `registerConnection` built. */
  lemma DescribeStep(
    registered: map<string, Connection>,
    config: Config,
    collections: map<string, Collection>,
    pending: set<string>,
    t: string,
    introspect: string -> Result<seq<ColumnRow>, DriverError>,
    normalize: seq<ColumnRow> -> Schema)
    requires t in pending && t in collections
    ensures var id := config.identity;
            AfterDescribe(registered[id := Connection(config, PartlyDescribed(collections, pending, introspect, normalize))],
                          id, t, DescribeSchema(introspect(t), normalize)) ==
            registered[id := Connection(config, PartlyDescribed(collections, pending - {t}, introspect, normalize))]
    ensures DescribedSchemas(collections, pending - {t}, introspect, normalize) ==
            DescribedSchemas(collections, pending, introspect, normalize)[t := DescribeSchema(introspect(t), normalize)]
  {
    var before := PartlyDescribed(collections, pending, introspect, normalize);
    var s := DescribeSchema(introspect(t), normalize);
    DescribeOneMore(collections, pending, t, introspect, normalize);
    if s.None? {
      assert before[t := Redescribed(collections[t], s)] == before;
    }
  }

  /** The registry after `describe` of `table` on `name` found schema `s`. */
  function AfterDescribe(connections: map<string, Connection>, name: string, table: string, s: Option<Schema>): map<string, Connection>
    requires name in connections
  {
    var c := connections[name];
    if s.Some? && table in c.collections then
      connections[name := c.(collections := c.collections[table := Redescribed(c.collections[table], s)])]
    else
      connections
  }

  class Adapter {
    /** The module-level `connections` object: identity to `{config, collections}`. */
    var connections: map<string, Connection>

    /** Every entry is keyed by its configuration's (truthy) identity. */
    ghost predicate Valid()
      reads this
    {
      forall name :: name in connections ==> name != "" && connections[name].config.identity == name
    }

    constructor ()
      ensures Valid()
      ensures connections == map[]
    {
      connections := map[];
    }

    /** The schema `create` and `createEach` read, after the lookups that precede it. */
    function CollectionSchema(name: string, table: string): Result<Schema, AdapterError>
      reads this
    {
      if name !in connections then Failure(InvalidConnection)
      else if table !in connections[name].collections then Failure(UnknownCollection)
      else match connections[name].collections[table].schema
        case None => Failure(SchemaUndescribed)
        case Some(s) => Success(s)
    }

    /** The guard of `spawnConnection`: the operation runs only on a registered connection. */
    method SpawnConnection(name: string) returns (r: Result<Connection, AdapterError>)
      requires Valid()
      ensures r.Success? <==> name in connections
      ensures r.Success? ==> r.value == connections[name] && r.value.config.identity == name
      ensures r.Failure? ==> r.error == InvalidConnection
    {
      if name !in connections {
        return Failure(InvalidConnection);
      }
      r := Success(connections[name]);
    }

    /**
     * `registerConnection`: refuse a missing or taken identity, otherwise store
     * `{config, collections}` under it and describe every collection.
     */
    method RegisterConnection(
      config: Config,
      collections: map<string, Collection>,
      introspect: string -> Result<seq<ColumnRow>, DriverError>,
      normalize: seq<ColumnRow> -> Schema)
      returns (r: Result<map<string, Option<Schema>>, AdapterError>)
      requires Valid()
      modifies this
      ensures Valid()
      ensures RegistrationCheck(old(connections), config.identity).Fail? ==>
                r == Failure(RegistrationCheck(old(connections), config.identity).error) &&
                connections == old(connections)
      ensures RegistrationCheck(old(connections), config.identity).Pass? ==>
                connections == old(connections)[config.identity :=
                  Connection(config, DescribeCollections(collections, introspect, normalize))] &&
                r == Success(map t | t in collections :: DescribeSchema(introspect(t), normalize))
    {
      var id := config.identity;
      if id == "" {
        return Failure(IdentityMissing);
      }
      if id in connections {
        return Failure(IdentityDuplicate);
      }
      connections := connections[id := Connection(config, collections)];
      ghost var registered := connections;

      var results: map<string, Option<Schema>> := map[];
      var pending := collections.Keys;
      NoneDescribed(collections, introspect, normalize);
      while pending != {}
        invariant pending <= collections.Keys
        invariant Valid()
        invariant connections == registered[id := Connection(config, PartlyDescribed(collections, pending, introspect, normalize))]
        invariant results == DescribedSchemas(collections, pending, introspect, normalize)
        decreases pending
      {
        var t :| t in pending;
        DescribeStep(registered, config, collections, pending, t, introspect, normalize);
        var described := Describe(id, t, introspect(t), normalize);
        results := results[t := described.value];
        pending := pending - {t};
      }
      AllDescribed(collections, introspect, normalize);
      r := Success(results);
    }

    /** `teardown`: forget the named connection; an unknown name is not an error. */
    method Teardown(name: string)
      requires Valid()
      modifies this
      ensures Valid()
      ensures connections == old(connections) - {name}
    {
      if name !in connections {
        return;
      }
      connections := connections - {name};
    }

    /**
     * `describe`: set the flags on the introspected rows and store their normalised schema
     * on the collection. A query error or an empty result yields no schema and no error.
     */
    method Describe(
      name: string,
      table: string,
      response: Result<seq<ColumnRow>, DriverError>,
      normalize: seq<ColumnRow> -> Schema)
      returns (r: Result<Option<Schema>, AdapterError>)
      requires Valid()
      modifies this
      ensures Valid()
      ensures name !in old(connections) ==> r == Failure(InvalidConnection) && connections == old(connections)
      ensures name in old(connections) ==>
                connections == AfterDescribe(old(connections), name, table, DescribeSchema(response, normalize))
      ensures name in old(connections) && DescribeSchema(response, normalize).None? ==> r == Success(None)
      ensures name in old(connections) && DescribeSchema(response, normalize).Some? ==>
                r == if table in old(connections)[name].collections
                     then Success(DescribeSchema(response, normalize))
                     else Failure(UnknownCollection)
    {
      var c := SpawnConnection(name);
      if c.Failure? {
        return Failure(InvalidConnection);
      }
      if response.Failure? || |response.value| == 0 {
        return Success(None);
      }
      var rows := response.value;
      var columns := new ColumnRow[|rows|](i requires 0 <= i < |rows| => rows[i]);
      assert columns[..] == rows;
      AnnotateColumns(columns);
      assert columns[..] == AnnotateAll(rows);
      var schema := normalize(columns[..]);
      if table !in c.value.collections {
        return Failure(UnknownCollection);
      }
      var collection := c.value.collections[table].(schema := Some(schema));
      connections := connections[name := c.value.(collections := c.value.collections[table := collection])];
      r := Success(Some(schema));
    }

    /**
     * `find`: the connection guard, then the aggregate check, then the collection lookup,
     * then the driver's rows (already cast and grouped) or its error.
     */
    method Find(name: string, table: string, options: FindOptions, response: Result<seq<Row>, DriverError>)
      returns (r: Result<seq<Row>, AdapterError>)
      requires Valid()
      ensures name !in connections ==> r == Failure(InvalidConnection)
      ensures name in connections && CheckAggregates(options).Fail? ==> r == Failure(InvalidGroupBy)
      ensures name in connections && CheckAggregates(options).Pass? && table !in connections[name].collections ==>
                r == Failure(UnknownCollection)
      ensures name in connections && CheckAggregates(options).Pass? && table in connections[name].collections ==>
                r == Lift(response)
      ensures r.Success? ==> response.Success? && r.value == response.value
    {
      var c := SpawnConnection(name);
      if c.Failure? {
        return Failure(InvalidConnection);
      }
      var check := CheckAggregates(options);
      if check.Fail? {
        return Failure(check.error);
      }
      if table !in c.value.collections {
        return Failure(UnknownCollection);
      }
      r := Lift(response);
    }

    /**
     * `create`: insert the record, then restart the sequence of every auto-increment column
     * the record supplied at the returned value + 1. `issued` lists the statements sent.
     */
    method Create(
      name: string,
      table: string,
      data: Record,
      insert: Record -> Result<Row, DriverError>,
      execute: (nat, Statement) -> Outcome<DriverError>)
      returns (r: Result<Row, AdapterError>, issued: seq<Statement>)
      requires Valid()
      ensures CollectionSchema(name, table).Failure? ==>
                r == Failure(CollectionSchema(name, table).error) && issued == []
      ensures CollectionSchema(name, table).Success? && insert(data).Failure? ==>
                r == Failure(QueryError(insert(data).error)) && issued == [InsertRow(data)]
      ensures CollectionSchema(name, table).Success? && insert(data).Success? ==>
                var cols := SuppliedColumns(AutoIncrementColumns(CollectionSchema(name, table).value), data);
                var restarts := CreateRestarts(cols, insert(data).value);
                && issued == [InsertRow(data)] + restarts
                && r == match FirstFailure(restarts, execute)
                        case Some(e) => Failure(QueryError(e))
                        case None => Success(insert(data).value)
    {
      issued := [];
      var c := SpawnConnection(name);
      if c.Failure? {
        return Failure(InvalidConnection), issued;
      }
      if table !in c.value.collections {
        return Failure(UnknownCollection), issued;
      }
      var schema := c.value.collections[table].schema;
      if schema.None? {
        return Failure(SchemaUndescribed), issued;
      }
      var incrementSequences := CollectReseedColumns(schema.value, data);
      issued := [InsertRow(data)];
      var inserted := insert(data);
      if inserted.Failure? {
        return Failure(QueryError(inserted.error)), issued;
      }
      var values := inserted.value;
      if |incrementSequences| == 0 {
        return Success(values), issued;
      }
      var restarts := CreateRestarts(incrementSequences, values);
      issued := issued + restarts;
      var err := RunEach(restarts, execute);
      r := if err.Some? then Failure(QueryError(err.value)) else Success(values);
    }

    /**
     * `createEach`: insert every record, keeping per auto-increment column the running
     * maximum of value + 1; when every insert succeeded, restart each such sequence once at
     * its tracker. `issued` lists the statements sent.
     */
    method CreateEach(
      name: string,
      table: string,
      records: seq<Record>,
      insert: (nat, Record) -> Result<Row, DriverError>,
      execute: (nat, Statement) -> Outcome<DriverError>)
      returns (r: Result<seq<Row>, AdapterError>, issued: seq<Statement>)
      requires Valid()
      ensures CollectionSchema(name, table).Failure? ==>
                r == Failure(CollectionSchema(name, table).error) && issued == []
      ensures CollectionSchema(name, table).Success? && FirstInsertError(records, insert).Some? ==>
                r == Failure(QueryError(FirstInsertError(records, insert).value)) &&
                issued == InsertStatements(records)
      ensures CollectionSchema(name, table).Success? && FirstInsertError(records, insert).None? ==>
                var rows := InsertedRows(records, insert);
                var restarts := BatchRestarts(AutoIncrementColumns(CollectionSchema(name, table).value), rows);
                && issued == InsertStatements(records) + restarts
                && r == match FirstFailure(restarts, execute)
                        case Some(e) => Failure(QueryError(e))
                        case None => Success(rows)
    {
      issued := [];
      var c := SpawnConnection(name);
      if c.Failure? {
        return Failure(InvalidConnection), issued;
      }
      if table !in c.value.collections {
        return Failure(UnknownCollection), issued;
      }
      var schema := c.value.collections[table].schema;
      if schema.None? {
        return Failure(SchemaUndescribed), issued;
      }
      ghost var cols := AutoIncrementColumns(schema.value);
      var initial := TrackAutoIncrementColumns(schema.value);
      var incrementSequences := new Tracker[|initial|](j requires 0 <= j < |initial| => initial[j]);
      var results, err, inserts := InsertBatch(records, insert, incrementSequences, cols);
      issued := inserts;
      if err.Some? {
        return Failure(QueryError(err.value)), issued;
      }
      if incrementSequences.Length == 0 {
        return Success(results), issued;
      }
      var restarts := TrackerRestarts(incrementSequences);
      assert restarts == BatchRestarts(cols, results);
      issued := issued + restarts;
      var failure := RunEach(restarts, execute);
      r := if failure.Some? then Failure(QueryError(failure.value)) else Success(results);
    }
  }

  /**
   * After `teardown`, the connection guard refuses the name, so every operation that goes
   * through `spawnConnection` fails on it with InvalidConnection.
   */
  method TeardownClosesConnection(adapter: Adapter, name: string) returns (r: Result<Connection, AdapterError>)
    requires adapter.Valid()
    modifies adapter
    ensures adapter.Valid()
    ensures name !in adapter.connections
    ensures r == Failure(InvalidConnection)
  {
    adapter.Teardown(name);
    r := adapter.SpawnConnection(name);
  }

  /** A second `teardown` of the same name changes nothing. */
  method TeardownIdempotent(adapter: Adapter, name: string)
    requires adapter.Valid()
    modifies adapter
    ensures adapter.Valid()
    ensures adapter.connections == old(adapter.connections) - {name}
  {
    adapter.Teardown(name);
    ghost var once := adapter.connections;
    adapter.Teardown(name);
    assert adapter.connections == once;
  }
}

=== FILE: adapter_types.dfy ===
/** The entities the adapter keeps and exchanges with its driver. */
module AdapterTypes {
  import opened Js
  import opened Wrappers

  /** The message of an error reported by the database driver. */
  type DriverError = string

  /**
   * Errors the adapter reports. UnknownCollection and SchemaUndescribed stand for the
   * TypeError the adapter throws when it dereferences an undefined collection or schema.
   */
  datatype AdapterError =
    | IdentityMissing
    | IdentityDuplicate
    | InvalidConnection
    | InvalidGroupBy
    | UnknownCollection
    | SchemaUndescribed
    | QueryError(message: DriverError)

  /** An attribute definition: its own properties (`type`, `autoIncrement`, ...). */
  type ColumnDef = map<string, JsValue>

  /** One key of a collection's schema object, with its definition. */
  datatype Column = Column(name: string, def: ColumnDef)

  /** A collection's schema: its keys in `Object.keys` order. */
  type Schema = seq<Column>

  /** A record handed to `create`/`createEach`: attribute name to value. */
  type Record = map<string, JsValue>

  /** A cast row returned by the driver. */
  type Row = map<string, JsValue>

  /** `row[key]`, which is `undefined` for a key the row lacks. */
  function Lookup(row: Row, key: string): JsValue {
    if key in row then row[key] else Undefined
  }

  /** The statements of the insert paths, as far as the model distinguishes them. */
  datatype Statement =
    | InsertRow(record: Record)
    | RestartSequence(column: string, restartWith: Num)

  /** A collection as the adapter sees it; `schema` stays undefined until `describe` sets it. */
  datatype Collection = Collection(schema: Option<Schema>)

  /** A connection configuration; `identity` is "" when it is missing or falsy. */
  datatype Config = Config(identity: string, settings: map<string, JsValue>)

  /** A registry entry: `{config, collections}`. */
  datatype Connection = Connection(config: Config, collections: map<string, Collection>)

  /** A driver result passed on to the adapter's own callback. */
  function Lift<T>(response: Result<T, DriverError>): Result<T, AdapterError> {
    match response
    case Success(v) => Success(v)
    case Failure(e) => Failure(QueryError(e))
  }
}

=== FILE: bool_parser.dfy ===
/** The text parser the adapter registers with the driver for type OID 16 (boolean). */
module BoolParser {

  /** The wire tokens that decode to true. */
  const TrueTokens: set<string> := {"t", "true", "y", "yes"}

  /** Decodes a boolean wire token: true exactly for the four lower-case tokens. */
  function ParseBool(str: string): (b: bool)
    ensures b <==> str in TrueTokens
  {
    str == "t" || str == "true" || str == "y" || str == "yes"
  }

  predicate IsUpperAscii(c: char) {
    'A' <= c <= 'Z'
  }

  /** No character of `s` is an ASCII capital. */
  predicate NoUpperAscii(s: string) {
    forall i :: 0 <= i < |s| ==> !IsUpperAscii(s[i])
  }

  /** ASCII lower-casing, the case folding of a case-insensitive reading of the tokens. */
  function LowerAscii(s: string): (r: string)
    ensures |r| == |s|
    ensures NoUpperAscii(r)
  {
    if s == [] then []
    else
      var c := if IsUpperAscii(s[0]) then (s[0] as int + 32) as char else s[0];
      [c] + LowerAscii(s[1..])
  }

  /** Lower-casing leaves a string without capitals unchanged. */
  lemma {:induction false} LowerAsciiKeepsLowercase(s: string)
    requires NoUpperAscii(s)
    ensures LowerAscii(s) == s
  {
    if s != [] {
      assert NoUpperAscii(s[1..]) by {
        forall i | 0 <= i < |s[1..]| ensures !IsUpperAscii(s[1..][i]) {
          assert s[1..][i] == s[i + 1];
        }
      }
      LowerAsciiKeepsLowercase(s[1..]);
      assert s == [s[0]] + s[1..];
    }
  }

  /** The accepted tokens are all lower case. */
  lemma AcceptedTokensAreLowercase(str: string)
    ensures ParseBool(str) ==> NoUpperAscii(str)
  {
  }

  /** A token containing an ASCII capital never decodes to true: the match is case-sensitive. */
  lemma UpperCaseRejected(str: string, k: nat)
    requires k < |str| && IsUpperAscii(str[k])
    ensures !ParseBool(str)
  {
    AcceptedTokensAreLowercase(str);
  }

  /**
   * Every token the parser accepts is also accepted after ASCII lower-casing, but not
   * conversely: "T" and "YES" are accepted only by the case-insensitive reading.
   */
  lemma ParseBoolStricterThanIgnoringCase(str: string)
    ensures ParseBool(str) ==> ParseBool(LowerAscii(str))
    ensures !ParseBool("T") && ParseBool(LowerAscii("T"))
    ensures !ParseBool("YES") && ParseBool(LowerAscii("YES"))
  {
    AcceptedTokensAreLowercase(str);
    if ParseBool(str) {
      LowerAsciiKeepsLowercase(str);
    }
    assert LowerAscii("T") == "t";
    assert LowerAscii("YES") == "yes";
  }
}

=== FILE: client.dfy ===
/**
 * The driver as seen by the insert paths. Every statement goes through one client whose
 * queue runs them in the order issued, so the first error in issue order is the first
 * error reported. The driver's answer is an oracle indexed by the statement's position in
 * its batch, so equal statements (two equal records, say) may get different answers.
 */
module Client {
  import opened Js
  import opened Wrappers
  import opened AdapterTypes

  /** One INSERT statement per record, in order. */
  function InsertStatements(records: seq<Record>): seq<Statement> {
    seq(|records|, i requires 0 <= i < |records| => InsertRow(records[i]))
  }

  /** The error of the first statement that fails, if any. */
  function FirstFailure(stmts: seq<Statement>, execute: (nat, Statement) -> Outcome<DriverError>): (e: Option<DriverError>)
    ensures e.None? <==> forall k :: 0 <= k < |stmts| ==> execute(k, stmts[k]).Pass?
    ensures e.Some? ==> exists k :: 0 <= k < |stmts| && execute(k, stmts[k]) == Fail(e.value) &&
                                    forall k' :: 0 <= k' < k ==> execute(k', stmts[k']).Pass?
  {
    if stmts == [] then None
    else
      var init := stmts[..|stmts| - 1];
      assert forall k :: 0 <= k < |init| ==> init[k] == stmts[k];
      match FirstFailure(init, execute)
      case Some(e) => Some(e)
      case None =>
        match execute(|stmts| - 1, stmts[|stmts| - 1])
        case Fail(e) => Some(e)
        case Pass => None
  }

  /** The error of the first record whose insert fails, if any. */
  function FirstInsertError(records: seq<Record>, insert: (nat, Record) -> Result<Row, DriverError>): Option<DriverError>
  {
    if records == [] then None
    else
      match FirstInsertError(records[..|records| - 1], insert)
      case Some(e) => Some(e)
      case None =>
        match insert(|records| - 1, records[|records| - 1])
        case Failure(e) => Some(e)
        case Success(_) => None
  }

  /**
   * No error exactly when every insert succeeds; otherwise the error is that of the first
   * failing insert, every earlier one having succeeded.
   */
  lemma {:induction false} FirstInsertErrorIsFirst(records: seq<Record>, insert: (nat, Record) -> Result<Row, DriverError>)
    ensures FirstInsertError(records, insert).None? <==> forall k :: 0 <= k < |records| ==> insert(k, records[k]).Success?
    ensures FirstInsertError(records, insert).Some? ==>
              exists k :: 0 <= k < |records| && insert(k, records[k]) == Failure(FirstInsertError(records, insert).value) &&
                          forall k' :: 0 <= k' < k ==> insert(k', records[k']).Success?
  {
    if records != [] {
      var init := records[..|records| - 1];
      FirstInsertErrorIsFirst(init, insert);
      assert forall k :: 0 <= k < |init| ==> init[k] == records[k];
    }
  }

  /** The rows returned by the inserts that succeed, in record order. */
  function InsertedRows(records: seq<Record>, insert: (nat, Record) -> Result<Row, DriverError>): seq<Row> {
    if records == [] then []
    else
      match insert(|records| - 1, records[|records| - 1])
      case Failure(_) => InsertedRows(records[..|records| - 1], insert)
      case Success(row) => InsertedRows(records[..|records| - 1], insert) + [row]
  }

  /** When every insert succeeds, there is one returned row per record, in record order. */
  lemma {:induction false} InsertedRowsInOrder(records: seq<Record>, insert: (nat, Record) -> Result<Row, DriverError>)
    requires forall k :: 0 <= k < |records| ==> insert(k, records[k]).Success?
    ensures |InsertedRows(records, insert)| == |records|
    ensures forall k :: 0 <= k < |records| ==> insert(k, records[k]) == Success(InsertedRows(records, insert)[k])
  {
    if records != [] {
      var init := records[..|records| - 1];
      assert forall k :: 0 <= k < |init| ==> init[k] == records[k];
      InsertedRowsInOrder(init, insert);
    }
  }

  /** `async.each` over statements on one client: run them all, report the first error. */
  method RunEach(stmts: seq<Statement>, execute: (nat, Statement) -> Outcome<DriverError>) returns (err: Option<DriverError>)
    ensures err == FirstFailure(stmts, execute)
  {
    err := None;
    var k := 0;
    while k < |stmts|
      invariant 0 <= k <= |stmts|
      invariant err == FirstFailure(stmts[..k], execute)
    {
      assert stmts[..k + 1][..k] == stmts[..k];
      var outcome := execute(k, stmts[k]);
      if outcome.Fail? && err.None? {
        err := Some(outcome.error);
      }
      k := k + 1;
    }
    assert stmts[..k] == stmts;
  }
}

=== FILE: describe_rows.dfy ===
/** The column rows `describe` reads from information_schema and the flags it sets on them. */
module DescribeRows {
  import opened Js
  import opened Wrappers
  import opened AdapterTypes

  /**
   * One row of the introspection query: Table, #, Column, Type, NULL, sequence_name,
   * index_name, constraint_type. `autoincrement` and `indexed` tell whether `describe` has
   * set that property to true on the row object (the query itself never returns them).
   */
  datatype ColumnRow = ColumnRow(
    table: string,
    position: int,
    column: string,
    dataType: string,
    nullability: string,
    sequenceName: JsValue,
    indexName: JsValue,
    constraintType: JsValue,
    autoincrement: bool,
    indexed: bool)

  /** A row as the query returns it, before any flag is set. */
  predicate FromQuery(row: ColumnRow) {
    !row.autoincrement && !row.indexed
  }

  /** The flags set on one row: `autoincrement` when it has a sequence, `indexed` when it has an index. */
  function Annotate(row: ColumnRow): (r: ColumnRow)
    ensures r.(autoincrement := row.autoincrement, indexed := row.indexed) == row
    ensures FromQuery(row) ==> (r.autoincrement <==> Truthy(row.sequenceName))
    ensures FromQuery(row) ==> (r.indexed <==> Truthy(row.indexName))
    ensures row.autoincrement ==> r.autoincrement
    ensures row.indexed ==> r.indexed
  {
    row.(autoincrement := row.autoincrement || Truthy(row.sequenceName),
         indexed := row.indexed || Truthy(row.indexName))
  }

  /** Setting the flags twice sets nothing new. */
  lemma AnnotateIdempotent(row: ColumnRow)
    ensures Annotate(Annotate(row)) == Annotate(row)
  {
  }

  /** Every row annotated, in order. */
  function AnnotateAll(rows: seq<ColumnRow>): seq<ColumnRow> {
    seq(|rows|, i requires 0 <= i < |rows| => Annotate(rows[i]))
  }

  /** The `_.each` loop: sets the flags on every row object of the result, in place. */
  method AnnotateColumns(rows: array<ColumnRow>)
    modifies rows
    ensures forall i :: 0 <= i < rows.Length ==> rows[i] == Annotate(old(rows[i]))
  {
    var i := 0;
    while i < rows.Length
      invariant 0 <= i <= rows.Length
      invariant forall k :: 0 <= k < i ==> rows[k] == Annotate(old(rows[k]))
      invariant forall k :: i <= k < rows.Length ==> rows[k] == old(rows[k])
    {
      rows[i] := Annotate(rows[i]);
      i := i + 1;
    }
  }

  /**
   * What `describe` makes of the introspection response: no schema for a query error or an
   * empty result, otherwise the normalised annotated rows (the normaliser is a parameter).
   */
  function DescribeSchema(response: Result<seq<ColumnRow>, DriverError>, normalize: seq<ColumnRow> -> Schema): (s: Option<Schema>)
    ensures s.None? <==> response.Failure? || response.value == []
    ensures s.Some? ==> s.value == normalize(AnnotateAll(response.value))
  {
    match response
    case Failure(_) => None
    case Success(rows) => if |rows| == 0 then None else Some(normalize(AnnotateAll(rows)))
  }

  /**
   * A column created with an index and returned with an index_name is reported as indexed,
   * and a serial column returned with a sequence_name as autoincrement.
   */
  lemma IndexedAndSerialColumnsReported(rows: seq<ColumnRow>, i: nat)
    requires i < |rows| && FromQuery(rows[i])
    ensures Truthy(rows[i].indexName) <==> AnnotateAll(rows)[i].indexed
    ensures Truthy(rows[i].sequenceName) <==> AnnotateAll(rows)[i].autoincrement
  {
  }
}

=== FILE: find_guard.dfy ===
/** The aggregate check at the top of `find`. */
module FindGuard {
  import opened Js
  import opened Wrappers
  import opened AdapterTypes

  /**
   * The option keys the check reads; every other criteria key goes to the query compiler.
   * A key the caller did not pass is `Undefined`.
   */
  datatype FindOptions = FindOptions(groupBy: JsValue, sum: JsValue, average: JsValue, min: JsValue, max: JsValue)

  /** At least one aggregate function is requested. */
  predicate AnyAggregate(o: FindOptions) {
    Truthy(o.sum) || Truthy(o.average) || Truthy(o.min) || Truthy(o.max)
  }

  /** The check: a `groupBy` needs an aggregate function to go with it. */
  function CheckAggregates(o: FindOptions): (r: Outcome<AdapterError>)
    ensures r.Fail? <==> Truthy(o.groupBy) && !AnyAggregate(o)
    ensures r.Fail? ==> r.error == InvalidGroupBy
  {
    if Truthy(o.groupBy) || Truthy(o.sum) || Truthy(o.average) || Truthy(o.min) || Truthy(o.max) then
      if !Truthy(o.sum) && !Truthy(o.average) && !Truthy(o.min) && !Truthy(o.max) then
        Fail(InvalidGroupBy)
      else
        Pass
    else
      Pass
  }

  /** Any requested aggregate lets the query through, with or without `groupBy`. */
  lemma AggregatePasses(o: FindOptions)
    requires AnyAggregate(o)
    ensures CheckAggregates(o) == Pass
  {
  }

  /** A plain query that sets none of the five keys passes. */
  lemma PlainQueryPasses(o: FindOptions)
    requires !Truthy(o.groupBy) && !AnyAggregate(o)
    ensures CheckAggregates(o) == Pass
  {
  }
}

=== FILE: js.dfy ===
/** The few JavaScript value semantics that the adapter's decisions depend on. */
module Js {

  /** A JavaScript value, as far as the adapter inspects it. Numbers are integers here. */
  datatype JsValue = Undefined | Null | Bool(b: bool) | Number(n: int) | Str(s: string) | Object

  /** JavaScript truthiness: what `if (v)` and `!v` test. */
  predicate Truthy(v: JsValue) {
    match v
    case Undefined => false
    case Null => false
    case Bool(b) => b
    case Number(n) => n != 0
    case Str(s) => s != ""
    case Object => true
  }

  /** A number that may be NaN. */
  datatype Num = Int(i: int) | NaN

  /** `v + 1`. A string operand concatenates in JavaScript; that case, and objects, are taken as NaN. */
  function PlusOne(v: JsValue): Num {
    match v
    case Number(n) => Int(n + 1)
    case Null => Int(1)
    case Bool(b) => Int(if b then 2 else 1)
    case Undefined => NaN
    case Str(_) => NaN
    case Object => NaN
  }

  /** `a < b` on numbers: every comparison involving NaN is false. */
  predicate Less(a: Num, b: Num) {
    a.Int? && b.Int? && a.i < b.i
  }
}

=== FILE: sequences.dfy ===
/**
 * Sequence reconciliation after inserts: which auto-increment columns are reseeded and to
 * what value, for a single insert (`create`) and for a batch (`createEach`).
 */
module Sequences {
  import opened Js
  import opened Wrappers
  import opened AdapterTypes
  import opened Client

  /** The definition has an own `autoIncrement` property, whatever its value. */
  predicate HasAutoIncrement(def: ColumnDef) {
    "autoIncrement" in def
  }

  /** Some key of the schema declares `autoIncrement`. */
  ghost predicate DeclaresAutoIncrement(schema: Schema, c: string) {
    exists i :: 0 <= i < |schema| && schema[i].name == c && HasAutoIncrement(schema[i].def)
  }

  /** The schema keys that declare `autoIncrement`, in schema key order. */
  function AutoIncrementColumns(schema: Schema): seq<string> {
    if schema == [] then []
    else
      var last := schema[|schema| - 1];
      AutoIncrementColumns(schema[..|schema| - 1]) + (if HasAutoIncrement(last.def) then [last.name] else [])
  }

  /** A name is tracked exactly when some schema key of that name declares `autoIncrement`. */
  lemma {:induction false} AutoIncrementColumnsMembers(schema: Schema)
    ensures forall c :: c in AutoIncrementColumns(schema) <==> DeclaresAutoIncrement(schema, c)
  {
    if schema != [] {
      var init := schema[..|schema| - 1];
      AutoIncrementColumnsMembers(init);
      assert forall i :: 0 <= i < |init| ==> init[i] == schema[i];
    }
  }

  /** The columns among `cols` that the inserted data supplies, in the same order. */
  function SuppliedColumns(cols: seq<string>, data: Record): seq<string> {
    if cols == [] then []
    else
      var last := cols[|cols| - 1];
      SuppliedColumns(cols[..|cols| - 1], data) + (if last in data then [last] else [])
  }

  /** A column is kept exactly when it is a candidate and the data has it as a key. */
  lemma {:induction false} SuppliedColumnsMembers(cols: seq<string>, data: Record)
    ensures forall c :: c in SuppliedColumns(cols, data) <==> c in cols && c in data
  {
    if cols != [] {
      var init := cols[..|cols| - 1];
      SuppliedColumnsMembers(init, data);
      assert cols == init + [cols[|cols| - 1]];
    }
  }

  /** Extending the schema prefix by one key extends its auto-increment columns by at most that key. */
  lemma AutoIncrementColumnsStep(schema: Schema, i: nat)
    requires i < |schema|
    ensures AutoIncrementColumns(schema[..i + 1]) ==
            AutoIncrementColumns(schema[..i]) + (if HasAutoIncrement(schema[i].def) then [schema[i].name] else [])
  {
    assert schema[..i + 1][..i] == schema[..i];
  }

  /** Appending one column to the candidates appends it to the supplied ones when the data has it. */
  lemma SuppliedColumnsStep(cols: seq<string>, key: string, data: Record)
    ensures SuppliedColumns(cols + [key], data) == SuppliedColumns(cols, data) + (if key in data then [key] else [])
  {
    assert (cols + [key])[..|cols|] == cols;
  }

  /**
   * The `forEach`/`push` loop of `create`: the schema keys that declare `autoIncrement` and
   * that the inserted data supplies, in schema key order.
   */
  method CollectReseedColumns(schema: Schema, data: Record) returns (cols: seq<string>)
    ensures cols == SuppliedColumns(AutoIncrementColumns(schema), data)
    ensures forall c :: c in cols <==> DeclaresAutoIncrement(schema, c) && c in data
  {
    cols := [];
    var i := 0;
    while i < |schema|
      invariant 0 <= i <= |schema|
      invariant cols == SuppliedColumns(AutoIncrementColumns(schema[..i]), data)
    {
      var key := schema[i].name;
      AutoIncrementColumnsStep(schema, i);
      var before := AutoIncrementColumns(schema[..i]);
      if HasAutoIncrement(schema[i].def) {
        SuppliedColumnsStep(before, key, data);
        if key in data {
          cols := cols + [key];
        }
      } else {
        assert before + [] == before;
      }
      i := i + 1;
    }
    assert schema[..i] == schema;
    AutoIncrementColumnsMembers(schema);
    SuppliedColumnsMembers(AutoIncrementColumns(schema), data);
  }

  /** One batch tracker: `{key, value}`. */
  datatype Tracker = Tracker(key: string, value: int)

  /** The `forEach`/`push` loop of `createEach`: one tracker at 0 per auto-increment key. */
  method TrackAutoIncrementColumns(schema: Schema) returns (trackers: seq<Tracker>)
    ensures |trackers| == |AutoIncrementColumns(schema)|
    ensures forall j :: 0 <= j < |trackers| ==> trackers[j] == Tracker(AutoIncrementColumns(schema)[j], 0)
  {
    trackers := [];
    var i := 0;
    while i < |schema|
      invariant 0 <= i <= |schema|
      invariant |trackers| == |AutoIncrementColumns(schema[..i])|
      invariant forall j :: 0 <= j < |trackers| ==> trackers[j] == Tracker(AutoIncrementColumns(schema[..i])[j], 0)
    {
      assert schema[..i + 1][..i] == schema[..i];
      if HasAutoIncrement(schema[i].def) {
        trackers := trackers + [Tracker(schema[i].name, 0)];
      }
      i := i + 1;
    }
    assert schema[..i] == schema;
  }

  /** `row[col] + 1`: the value the sequence must move past for this row. */
  function NextValue(row: Row, col: string): Num {
    PlusOne(Lookup(row, col))
  }

  /** `checkSequence`: the tracker takes the row's next value when that is larger. */
  function Raise(current: int, next: Num): (r: int)
    ensures r >= current
    ensures next.Int? ==> r >= next.i
    ensures r == current || next == Int(r)
  {
    if Less(Int(current), next) then next.i else current
  }

  /** A tracker for `col` after the given rows, starting from 0. */
  function BatchTracker(rows: seq<Row>, col: string): int {
    if rows == [] then 0
    else Raise(BatchTracker(rows[..|rows| - 1], col), NextValue(rows[|rows| - 1], col))
  }

  /** `t` is the maximum of 0 and every row's next value for `col`. */
  ghost predicate IsBatchMaximum(t: int, rows: seq<Row>, col: string) {
    && t >= 0
    && (forall i :: 0 <= i < |rows| && NextValue(rows[i], col).Int? ==> NextValue(rows[i], col).i <= t)
    && (t == 0 || exists i :: 0 <= i < |rows| && NextValue(rows[i], col) == Int(t))
  }

  /** The running maximum ends at max(0, max over the rows of value + 1). */
  lemma {:induction false} BatchTrackerIsMaximum(rows: seq<Row>, col: string)
    ensures IsBatchMaximum(BatchTracker(rows, col), rows, col)
  {
    if rows != [] {
      var init := rows[..|rows| - 1];
      BatchTrackerIsMaximum(init, col);
      assert forall i :: 0 <= i < |init| ==> init[i] == rows[i];
      var t := BatchTracker(rows, col);
      var last := NextValue(rows[|rows| - 1], col);
      if t != 0 && t != BatchTracker(init, col) {
        assert last == Int(t);
      }
    }
  }

  /** The maximum is determined by the set of rows alone. */
  lemma BatchMaximumUnique(t: int, rows: seq<Row>, t': int, rows': seq<Row>, col: string)
    requires IsBatchMaximum(t, rows, col) && IsBatchMaximum(t', rows', col)
    requires forall r :: r in rows <==> r in rows'
    ensures t == t'
  {
    if t != 0 {
      var i :| 0 <= i < |rows| && NextValue(rows[i], col) == Int(t);
      assert rows[i] in rows';
      var i' :| 0 <= i' < |rows'| && rows'[i'] == rows[i];
      assert t <= t';
    }
    if t' != 0 {
      var i' :| 0 <= i' < |rows'| && NextValue(rows'[i'], col) == Int(t');
      assert rows'[i'] in rows;
      var i :| 0 <= i < |rows| && rows[i] == rows'[i'];
      assert t' <= t;
    }
  }

  /** The tracker after a batch does not depend on the order in which the rows complete. */
  lemma BatchTrackerOrderIndependent(rows: seq<Row>, rows': seq<Row>, col: string)
    requires multiset(rows) == multiset(rows')
    ensures BatchTracker(rows, col) == BatchTracker(rows', col)
  {
    BatchTrackerIsMaximum(rows, col);
    BatchTrackerIsMaximum(rows', col);
    forall r ensures r in rows <==> r in rows' {
      assert r in rows <==> r in multiset(rows);
      assert r in rows' <==> r in multiset(rows');
    }
    BatchMaximumUnique(BatchTracker(rows, col), rows, BatchTracker(rows', col), rows', col);
  }

  /** The tracker never decreases as rows complete. */
  lemma {:induction false} BatchTrackerMonotone(rows: seq<Row>, k: nat, col: string)
    requires k <= |rows|
    ensures BatchTracker(rows[..k], col) <= BatchTracker(rows, col)
  {
    if k < |rows| {
      var init := rows[..|rows| - 1];
      assert init[..k] == rows[..k];
      BatchTrackerMonotone(init, k, col);
    } else {
      assert rows[..k] == rows;
    }
  }

  /** The batch reseed value is strictly above every numeric value the batch supplied. */
  lemma BatchRestartExceedsSupplied(rows: seq<Row>, col: string)
    ensures BatchTracker(rows, col) >= 0
    ensures forall i :: 0 <= i < |rows| && Lookup(rows[i], col).Number? ==> Lookup(rows[i], col).n < BatchTracker(rows, col)
  {
    BatchTrackerIsMaximum(rows, col);
    forall i | 0 <= i < |rows| && Lookup(rows[i], col).Number?
      ensures Lookup(rows[i], col).n < BatchTracker(rows, col)
    {
      assert NextValue(rows[i], col) == Int(Lookup(rows[i], col).n + 1);
    }
  }

  /** A batch of one row reseeds to the same value as a single insert when that value is positive. */
  lemma SingleInsertMatchesBatch(row: Row, col: string)
    requires NextValue(row, col).Int? && NextValue(row, col).i > 0
    ensures BatchTracker([row], col) == NextValue(row, col).i
  {
    assert [row][..0] == [];
  }

  /** The reseed statements of `create`: each supplied column restarts at its returned value + 1. */
  function CreateRestarts(cols: seq<string>, row: Row): (stmts: seq<Statement>)
    ensures |stmts| == |cols|
    ensures forall j :: 0 <= j < |cols| ==> stmts[j].RestartSequence? && stmts[j].column == cols[j]
    ensures forall j :: 0 <= j < |cols| && Lookup(row, cols[j]).Number? ==>
              stmts[j].restartWith == Int(Lookup(row, cols[j]).n + 1)
  {
    seq(|cols|, j requires 0 <= j < |cols| => RestartSequence(cols[j], NextValue(row, cols[j])))
  }

  /**
   * The reseed statements `create` issues as written: the column is taken from `item.key`,
   * which is undefined for the plain column name `item`, so every statement names "undefined".
   */
  function CreateRestartsAsWritten(cols: seq<string>, row: Row): (stmts: seq<Statement>)
    ensures |stmts| == |cols|
    ensures forall j :: 0 <= j < |cols| ==> stmts[j].RestartSequence? && stmts[j].column == "undefined"
  {
    seq(|cols|, j requires 0 <= j < |cols| => RestartSequence("undefined", NextValue(row, cols[j])))
  }

  /** As written, a reseed never reaches the column whose value was supplied. */
  lemma CreateRestartsAsWrittenMissColumn(cols: seq<string>, row: Row, j: nat)
    requires j < |cols| && cols[j] != "undefined"
    ensures CreateRestartsAsWritten(cols, row)[j].column != cols[j]
    ensures CreateRestartsAsWritten(cols, row) != CreateRestarts(cols, row)
  {
    assert CreateRestartsAsWritten(cols, row)[j] != CreateRestarts(cols, row)[j];
  }

  /** The reseed statements of `createEach`: one per tracked column, at the batch maximum. */
  function BatchRestarts(cols: seq<string>, rows: seq<Row>): (stmts: seq<Statement>)
    ensures |stmts| == |cols|
    ensures forall j :: 0 <= j < |cols| ==>
              stmts[j].RestartSequence? && stmts[j].column == cols[j] && stmts[j].restartWith.Int? &&
              IsBatchMaximum(stmts[j].restartWith.i, rows, cols[j])
  {
    assert forall j :: 0 <= j < |cols| ==> IsBatchMaximum(BatchTracker(rows, cols[j]), rows, cols[j]) by {
      forall j | 0 <= j < |cols| ensures IsBatchMaximum(BatchTracker(rows, cols[j]), rows, cols[j]) {
        BatchTrackerIsMaximum(rows, cols[j]);
      }
    }
    seq(|cols|, j requires 0 <= j < |cols| => RestartSequence(cols[j], Int(BatchTracker(rows, cols[j]))))
  }

  /** An empty batch still restarts every tracked sequence, at the trackers' initial 0. */
  lemma EmptyBatchRestartsAtZero(cols: seq<string>)
    ensures forall j :: 0 <= j < |cols| ==> BatchRestarts(cols, [])[j] == RestartSequence(cols[j], Int(0))
  {
  }

  /** `checkSequence` over every tracker for one completed row, updating `item.value` in place. */
  method RaiseTrackers(trackers: array<Tracker>, row: Row)
    modifies trackers
    ensures forall j :: 0 <= j < trackers.Length ==>
              trackers[j] == old(trackers[j]).(value := Raise(old(trackers[j]).value, NextValue(row, old(trackers[j]).key)))
  {
    var j := 0;
    while j < trackers.Length
      invariant 0 <= j <= trackers.Length
      invariant forall k :: 0 <= k < j ==>
                  trackers[k] == old(trackers[k]).(value := Raise(old(trackers[k]).value, NextValue(row, old(trackers[k]).key)))
      invariant forall k :: j <= k < trackers.Length ==> trackers[k] == old(trackers[k])
    {
      var item := trackers[j];
      var sequenceValue := NextValue(row, item.key);
      if Less(Int(item.value), sequenceValue) {
        trackers[j] := item.(value := sequenceValue.i);
      }
      j := j + 1;
    }
  }

  /** One more record: one more INSERT, and its error or row joins the batch's. */
  lemma InsertPrefixStep(records: seq<Record>, insert: (nat, Record) -> Result<Row, DriverError>, i: nat)
    requires i < |records|
    ensures InsertStatements(records[..i + 1]) == InsertStatements(records[..i]) + [InsertRow(records[i])]
    ensures FirstInsertError(records[..i + 1], insert) ==
            if FirstInsertError(records[..i], insert).Some? then FirstInsertError(records[..i], insert)
            else if insert(i, records[i]).Failure? then Some(insert(i, records[i]).error)
            else None
    ensures InsertedRows(records[..i + 1], insert) ==
            InsertedRows(records[..i], insert) + (if insert(i, records[i]).Success? then [insert(i, records[i]).value] else [])
  {
    assert records[..i + 1][..i] == records[..i];
  }

  /** One more completed row raises every column's tracker by `checkSequence`. */
  lemma BatchTrackerStep(rows: seq<Row>, row: Row)
    ensures forall col :: BatchTracker(rows + [row], col) == Raise(BatchTracker(rows, col), NextValue(row, col))
  {
    assert (rows + [row])[..|rows|] == rows;
  }

  /**
   * The insert loop of `createEach`: every record is inserted; each row that comes back
   * raises the trackers; the first error is kept.
   */
  method InsertBatch(
    records: seq<Record>,
    insert: (nat, Record) -> Result<Row, DriverError>,
    trackers: array<Tracker>,
    ghost cols: seq<string>)
    returns (results: seq<Row>, err: Option<DriverError>, issued: seq<Statement>)
    requires trackers.Length == |cols|
    requires forall j :: 0 <= j < |cols| ==> trackers[j] == Tracker(cols[j], 0)
    modifies trackers
    ensures issued == InsertStatements(records)
    ensures err == FirstInsertError(records, insert)
    ensures results == InsertedRows(records, insert)
    ensures forall j :: 0 <= j < |cols| ==> trackers[j] == Tracker(cols[j], BatchTracker(results, cols[j]))
  {
    results, err, issued := [], None, [];
    var i := 0;
    while i < |records|
      invariant 0 <= i <= |records|
      invariant issued == InsertStatements(records[..i])
      invariant err == FirstInsertError(records[..i], insert)
      invariant results == InsertedRows(records[..i], insert)
      invariant forall j :: 0 <= j < |cols| ==> trackers[j] == Tracker(cols[j], BatchTracker(results, cols[j]))
    {
      InsertPrefixStep(records, insert, i);
      issued := issued + [InsertRow(records[i])];
      var inserted := insert(i, records[i]);
      if inserted.Failure? {
        if err.None? {
          err := Some(inserted.error);
        }
      } else {
        BatchTrackerStep(results, inserted.value);
        results := results + [inserted.value];
        RaiseTrackers(trackers, inserted.value);
      }
      i := i + 1;
    }
    assert records[..i] == records;
  }

  /** A database that hands out serial ids 1, 2, … in issue order, whatever the record. */
  function SerialIds(k: nat, record: Record): Result<Row, DriverError> {
    Success(map["id" := Number(k + 1)])
  }

  /**
   * Two equal records still get two rows: with serial ids 1 and 2 the batch succeeds and the
   * tracker for `id` ends at 3.
   */
  lemma DuplicateRecordsGetDistinctRows(r: Record)
    ensures FirstInsertError([r, r], SerialIds) == None
    ensures InsertedRows([r, r], SerialIds) == [map["id" := Number(1)], map["id" := Number(2)]]
    ensures BatchTracker(InsertedRows([r, r], SerialIds), "id") == 3
  {
    assert [r, r][..1] == [r];
    assert [r][..0] == [];
    assert SerialIds(0, r) == Success(map["id" := Number(1)]);
    assert SerialIds(1, r) == Success(map["id" := Number(2)]);
    assert FirstInsertError([r], SerialIds) == None;
    var row1, row2 := map["id" := Number(1)], map["id" := Number(2)];
    assert InsertedRows([r], SerialIds) == InsertedRows([], SerialIds) + [row1] == [row1];
    assert InsertedRows([r, r], SerialIds) == [row1] + [row2];
    var rows := [row1, row2];
    assert rows[..1] == [row1];
    assert [row1][..0] == [];
    assert BatchTracker([row1], "id") == 2;
  }

  /** A database with a unique constraint: the first of two equal records is stored, the second refused. */
  function UniqueViolation(k: nat, record: Record): Result<Row, DriverError> {
    if k == 0 then Success(record) else Failure("duplicate key value violates unique constraint")
  }

  /** Two equal records where only the later insert fails: the batch reports that error. */
  lemma DuplicateRecordLaterRefused(r: Record)
    ensures FirstInsertError([r, r], UniqueViolation) == Some("duplicate key value violates unique constraint")
    ensures InsertedRows([r, r], UniqueViolation) == [r]
  {
    assert [r, r][..1] == [r];
    assert [r][..0] == [];
    assert UniqueViolation(0, r) == Success(r);
    assert FirstInsertError([r], UniqueViolation) == None;
    assert UniqueViolation(1, r).Failure?;
    assert InsertedRows([r], UniqueViolation) == InsertedRows([], UniqueViolation) + [r] == [r];
  }

  /** The `setSequence` statements of `createEach`: one per tracker, at its value. */
  method TrackerRestarts(trackers: array<Tracker>) returns (restarts: seq<Statement>)
    ensures |restarts| == trackers.Length
    ensures forall j :: 0 <= j < trackers.Length ==> restarts[j] == RestartSequence(trackers[j].key, Int(trackers[j].value))
  {
    restarts := [];
    var j := 0;
    while j < trackers.Length
      invariant 0 <= j <= trackers.Length
      invariant |restarts| == j
      invariant forall k :: 0 <= k < j ==> restarts[k] == RestartSequence(trackers[k].key, Int(trackers[k].value))
    {
      restarts := restarts + [RestartSequence(trackers[j].key, Int(trackers[j].value))];
      j := j + 1;
    }
  }
}

=== FILE: wrappers.dfy ===
/** The shapes in which the adapter reports success or failure to its callbacks. */
module Wrappers {

  /** A value that may be absent (JavaScript `undefined`). */
  datatype Option<+T> = None | Some(value: T)

  /** `cb(null, value)` or `cb(err)`. */
  datatype Result<+T, +E> = Success(value: T) | Failure(error: E)

  /** `cb()` or `cb(err)`: success that carries no value. */
  datatype Outcome<+E> = Pass | Fail(error: E)
}
